=== FILE: README.md ===
# Assistant-setup wizard of the chat context

This project models the onboarding wizard of a mobile chat application. The wizard
configures an assistant persona: a mode, a gender, a tone and a name. Two source files
hold the logic:

- `contexts/ChatContext.tsx` holds three pieces of state: the assistant settings, the
  transient wizard state (current step, selected option, custom-name entry, selected name)
  and the ordered message log. Its handlers change that state.
- `utils/assistantMessages.ts` is the scripted conversation. For each step it lists the
  messages to show. Each message has a `content` function of the settings and the user's
  input, a role, and a flag saying whether it closes a group of bubbles.

Each React state handler becomes one pure transition `ChatState -> ChatState`. The modules:

- `Wrappers`: the `Option` type, used for `T | null` values and optional fields.
- `Sequences`: `Array.prototype.indexOf`, `Array.prototype.filter` and subsequences. It
  proves that `filter` is the only subsequence that keeps exactly the matching elements.
- `Text`: `String.prototype.trim`, using the ECMAScript whitespace and line-terminator
  code points.
- `Steps`: the steps `mode → gender → tone → name → final`, `stepOrder`, and the successor
  switch used by validation.
- `ChatContext`: the records and every handler, plus lemmas about merging settings and
  rewinding.
- `AssistantMessages`: the message table and lemmas about each step's answers.
- `SetupFlow`: runs of handler calls. It covers the log-consistency invariant, forward-only
  progress and the three ways through the wizard (default mode, personalised, custom name).

Modelling choices:

- The settings fields `mode`, `gender` and `tone` are strings. At
  `contexts/ChatContext.tsx:141` the handler stores the raw selected option into the field
  named by the step, through an `as any` cast. `WellTyped` states when these fields hold
  their declared values. `ValidateChoiceKeepsWellTyped` shows validation keeps them well
  typed when the option is one the step offers. `ValidateChoiceCanBreakWellTyped` shows an
  arbitrary option breaks this. The message table's fallback `""` branches exist for such
  values.
- At `final` the cast writes a key that is not a settings field. The model leaves the typed
  settings unchanged there.
- Message ids and timestamps are supplied by the caller.

Three facts about the code that the model keeps:

- Validation does nothing without a selection (contexts/ChatContext.tsx:117).
- `clearMessages` empties the log (contexts/ChatContext.tsx:100-102); apart from it, only `goToStep`
  removes messages.
- `resetAssistantSetup` keeps the log and the settings (contexts/ChatContext.tsx:179-187).

## Model

| member | source | states |
|---|---|---|
| Sequences.IndexOf | contexts/ChatContext.tsx:207 | `indexOf` gives the first position holding the element, and -1 exactly when it is absent |
| Sequences.Filter | contexts/ChatContext.tsx:203-209 | `filter` keeps every element satisfying the predicate and nothing else |
| Sequences.FilterIsSubsequence | contexts/ChatContext.tsx:203-209 | the filtered log is a subsequence of the original, all of its elements satisfy the predicate, and its length is the count of satisfying elements |
| Sequences.FilterCharacterised | contexts/ChatContext.tsx:203-209 | any subsequence holding only satisfying elements, as many as the original has, equals the filtered log |
| Sequences.FilterIdempotent | contexts/ChatContext.tsx:203-209 | filtering twice by the same predicate is filtering once |
| Sequences.FilterNarrowing | contexts/ChatContext.tsx:203-209 | filtering by a weaker then a stronger predicate is filtering by the stronger one |
| Sequences.FilterKeepsAll | contexts/ChatContext.tsx:203-209 | a predicate true of every element leaves the log unchanged |
| Text.TrimStart | contexts/ChatContext.tsx:167-168 | the result is the suffix of the input after its leading whitespace |
| Text.TrimEnd | contexts/ChatContext.tsx:167-168 | the result is the prefix of the input before its trailing whitespace |
| Text.Trim | contexts/ChatContext.tsx:167-168 | `trim()` is empty exactly for blank strings; otherwise it starts and ends with non-whitespace. It is a prefix of the input without its leading whitespace, and only whitespace follows it |
| Text.TrimIdempotent | contexts/ChatContext.tsx:167-168 | trimming a trimmed name changes nothing |
| Steps.Rank | contexts/ChatContext.tsx:20-27 | every step has a position in `stepOrder`, and that position holds the step |
| Steps.RankIsIndexOf | contexts/ChatContext.tsx:207 | `stepOrder.indexOf(step)` is never -1 and equals the step's position |
| Steps.RankInjective | contexts/ChatContext.tsx:20-27 | distinct steps have distinct positions |
| Steps.NextStep | contexts/ChatContext.tsx:143-157 | the validation switch moves every step but `final` one position forward in `stepOrder`, and keeps `final` |
| Steps.NextStepFollowsStepOrder | contexts/ChatContext.tsx:143-157 | the validation switch sends each step to its successor in `stepOrder`, and `final` to itself |
| Steps.NotAfterIsTotalOrder | contexts/ChatContext.tsx:207 | comparing `indexOf` positions is a total order on the steps |
| ChatContext.Merge | contexts/ChatContext.tsx:104-109 | `{ ...prev, ...patch }` takes each field named by the patch from the patch and keeps every other field |
| ChatContext.StepPatch | contexts/ChatContext.tsx:141 | the computed-key patch writes the option into exactly the settings field named like the step, and nothing else; at `final`, which names no settings field, it is empty |
| ChatContext.AddMessage | contexts/ChatContext.tsx:81-98 | the log grows by one entry at the end; earlier entries are unchanged; the new entry has the given content, role, step, flag, video, id and timestamp; settings and wizard are untouched |
| ChatContext.ClearMessages | contexts/ChatContext.tsx:100-102 | the log becomes empty and nothing else changes |
| ChatContext.UpdateAssistantSettings | contexts/ChatContext.tsx:104-109 | only the settings change, by merging the patch |
| ChatContext.HandleOptionSelect | contexts/ChatContext.tsx:111-113 | only the selected option changes |
| ChatContext.HandleValidateChoice | contexts/ChatContext.tsx:115-163 | with no or an empty selection nothing changes. "default" at `mode` installs {default, neutral, cordial, Sam}, jumps to `final` and clears the selection. A non-default option at `name` only opens the custom-name entry. Otherwise the option goes into the step's field (Sam at `name`, nothing at `final`), the step moves to its successor and the selection is cleared. The log never changes and the step never moves back |
| ChatContext.HandleValidateCustomName | contexts/ChatContext.tsx:165-177 | a blank custom name changes nothing. Otherwise the trimmed name (non-empty, no surrounding whitespace) becomes both the selected name and the settings' name, the step becomes `final` and the entry closes. The selection, the typed text and the log are kept |
| ChatContext.ResetAssistantSetup | contexts/ChatContext.tsx:179-187 | the wizard returns to its initial state at `mode`; settings and log are kept |
| ChatContext.SetCustomName | contexts/ChatContext.tsx:189-191 | only the typed custom name changes |
| ChatContext.PruneAfter | contexts/ChatContext.tsx:203-209 | the pruned log holds exactly the original messages that have no step or a step not after the target |
| ChatContext.GoToStep | contexts/ChatContext.tsx:193-210 | the step becomes the target. Selection, custom entry and typed name are cleared. The selected name survives only for `name` and `final`. Settings are kept. The log becomes the pruned log, so a message survives exactly when it has no step or its step is not after the target, in its original order |
| ChatContext.MergeEmptyPatch | contexts/ChatContext.tsx:104-109 | an empty partial update leaves the settings unchanged |
| ChatContext.MergeComposes | contexts/ChatContext.tsx:104-109 | two successive updates equal one update with the combined patch; repeating an update is idempotent |
| ChatContext.MergeFullPatch | contexts/ChatContext.tsx:119-124 | a patch naming every field, like the default-mode one, fixes the settings whatever they were |
| ChatContext.PruneAfterIsSubsequence | contexts/ChatContext.tsx:203-209 | the pruned log keeps the survivors in their original relative order, one entry per surviving message |
| ChatContext.PruneAfterUnique | contexts/ChatContext.tsx:203-209 | any order-preserving selection of exactly the surviving messages is the pruned log |
| ChatContext.GoToStepComposes | contexts/ChatContext.tsx:193-210 | rewinding to a step and then to an earlier or equal one is rewinding to the latter directly (whole state) |
| ChatContext.GoToStepIdempotent | contexts/ChatContext.tsx:193-210 | applying the same `goToStep` twice gives the same state, log included |
| ChatContext.GoToFinalKeepsLog | contexts/ChatContext.tsx:203-209 | rewinding to `final` removes no message |
| ChatContext.ValidateChoiceKeepsWellTyped | contexts/ChatContext.tsx:115-163 | when the selected option is one the step offers, the cast-based store keeps mode, gender and tone within their declared values |
| ChatContext.ValidateChoiceCanBreakWellTyped | contexts/ChatContext.tsx:141 | for example, "robot" selected and validated at `gender` is stored unchecked, leaving the gender outside its declared values |
| AssistantMessages.Messages | utils/assistantMessages.ts:20-134 | every step has an entry whose last message is flagged as last; the entry opens with a user message exactly for the steps after `mode`; a message is flagged as last exactly when it ends a run of one speaker's messages (so every user answer is flagged and the name presentation is not) |
| AssistantMessages.GenderLabel | utils/assistantMessages.ts:60-75 | the gender answer is empty exactly when the gender is not one of its declared values |
| AssistantMessages.ToneLabel | utils/assistantMessages.ts:84-103 | the tone answer is empty exactly when the tone is not one of its declared values |
| AssistantMessages.NameAnswerText | utils/assistantMessages.ts:117-124 | the final answer is empty exactly when the custom option is selected with an empty custom name |
| AssistantMessages.Content | utils/assistantMessages.ts:23-131 | the only templates that can render empty are the three answers; each is empty exactly in its fallback case (out-of-type gender or tone, empty custom name). Every other line is non-empty |
| AssistantMessages.ModeEntryShape | utils/assistantMessages.ts:21-45 | the `mode` entry is four assistant messages, and only the last is flagged as last |
| AssistantMessages.EntriesAlternateSpeakers | utils/assistantMessages.ts:20-134 | every entry ends with a message flagged as last; every entry after `mode` opens with the user's answer followed only by assistant messages |
| AssistantMessages.ModeAnswerMatchesMode | utils/assistantMessages.ts:47-51 | the `gender` entry opens with this answer as the user's flagged message. The answer is "Par défaut" exactly when the mode is default and "Personnalisé" exactly otherwise |
| AssistantMessages.GenderAnswerMatchesGender | utils/assistantMessages.ts:60-75 | the `tone` entry opens with this answer as the user's flagged message. masculine→"Masculin", feminine→"Féminin", neutral→"Neutre". The answer is empty exactly for an out-of-type gender. Valid genders are told apart by their label |
| AssistantMessages.ToneAnswerAgreesWithGender | utils/assistantMessages.ts:84-103 | the `name` entry opens with this answer as the user's flagged message. The feminine form ("Cordiale"/"Formelle") appears exactly when the gender is feminine and the tone cordial or formal. "Humoristique" does not depend on gender. The answer is empty exactly for an out-of-type tone |
| AssistantMessages.ToneAnswerIdentifiesTone | utils/assistantMessages.ts:84-103 | a valid tone is determined by its label, whatever the gender |
| AssistantMessages.NameAnswerNamesChosenName | utils/assistantMessages.ts:117-124 | the `final` entry opens with this answer as the user's flagged message. It is the custom name when the custom option is selected, and otherwise the settings' name plus " me convient"; it always starts with the chosen name |
| AssistantMessages.ConfirmationRepeatsName | utils/assistantMessages.ts:125-131 | the confirmation is the second, flagged assistant message of the `final` entry. It opens with "Mon nom est donc: ", follows it at once with the same name the final answer used, and ends by greeting the user by name |
| SetupFlow.ForwardActionNeverRewinds | contexts/ChatContext.tsx:81-191 | no handler other than `goToStep` and `resetAssistantSetup` moves the step back |
| SetupFlow.ForwardRunNeverRewinds | contexts/ChatContext.tsx:81-191 | along any run without rewind or reset, the step index never decreases |
| SetupFlow.AddKeepsLogConsistent | contexts/ChatContext.tsx:81-98 | appending a message tagged at most with the current step keeps every tagged message at or before the current step |
| SetupFlow.ApplyKeepsLogConsistent | contexts/ChatContext.tsx:81-210 | every handler except reset keeps the log consistent with the current step, given such appends |
| SetupFlow.RunKeepsLogConsistent | contexts/ChatContext.tsx:81-210 | the consistency of log and step holds along every admissible run |
| SetupFlow.RewindMakesLogConsistent | contexts/ChatContext.tsx:193-210 | after `goToStep`, no logged message belongs to a later step, whatever the log held |
| SetupFlow.ResetThenClearIsConsistent | contexts/ChatContext.tsx:179-187 | reset followed by clearing the log gives the initial wizard state and a consistent log |
| SetupFlow.DefaultModeShortcut | contexts/ChatContext.tsx:118-130 | selecting and validating "default" at `mode` reaches `final` with the default persona, leaves the log alone, and makes the final answer "Sam me convient" |
| SetupFlow.PersonalizedPath | contexts/ChatContext.tsx:115-163 | from `mode`, choosing personalised, a valid gender, a valid tone and the default name reaches `final` with exactly those settings, well typed |
| SetupFlow.CustomNameEntry | contexts/ChatContext.tsx:132-138 | at `name`, validating a non-default option opens the custom-name entry, stays at `name` and keeps the settings |
| SetupFlow.CustomNamePath | contexts/ChatContext.tsx:165-177 | choosing "custom", typing a non-blank name and validating it reaches `final` with the trimmed name stored as both the selected and the settings' name |
| SetupFlow.CustomNameAnswer | utils/assistantMessages.ts:117-124 | after that path the final answer quotes the name as typed, which equals the stored name exactly when it has no surrounding whitespace |
| SetupFlow.BlankCustomNameRefused | contexts/ChatContext.tsx:165-177 | a blank custom name leaves the wizard in the custom-name entry at `name` with the settings unchanged |

## Left out

- contexts/UserContext.tsx and contexts/UserPhotoContext.tsx: camera and gallery
  permission requests and picker calls are foreign, asynchronous I/O.
- Rendering components (chat bubbles, buttons, cards, dialogs, bottom sheet, header
  button): these are layout and navigation. The "change my answer" button in
  components/chat/InitChatMessage.tsx calls `goToStep` only from user messages tagged
  `gender`, `tone` or `name`. `GoToStep` is modelled for every target, which covers these.
- components/ui/ProgressBar.tsx: a floating-point fraction for display.
- components/chat/ToneSelection.tsx: carousel offsets and animation.
- Id and timestamp generation (`Date.now`, `Math.random`, `new Date()`): these become
  parameters of `AddMessage`, and a timestamp is an integer.
- The React provider, the `useChatContext` missing-provider error, state batching and
  stale closures: each handler is one atomic transition that reads the current state.
- ChatContext.SettingsPatch: a `Partial<AssistantSettings>` whose key is present but set
  to `undefined` would overwrite a field with `undefined`. A patch field here is either
  absent or a value.
- The screen that plays the message table and decides which step tag each logged message
  gets is not part of this model. So `SetupFlow.Admissible` takes as an assumption that
  appended messages are tagged at most with the current step.
- SetupFlow.ParamsOf: the component that renders the message table is not part of this
  model. The parameters a template is rendered with are assumed to be read from the wizard
  state after the handler ran: the settings, `selectedOption` and `customName`, with the
  user's name as given. The final-answer claims of `SetupFlow.DefaultModeShortcut`
  ("Sam me convient") and `SetupFlow.CustomNameAnswer` (the untrimmed typed name) hold
  under that assumption only.

=== FILE: assistant_messages.dfy ===
/**
 The scripted conversation of the setup wizard: for each step, the messages shown when the
 wizard reaches it. The first message of every step but `mode` is the user's answer to the
 previous step's question, rendered from the settings; the rest are the assistant's lines.
 */
module AssistantMessages {
  import opened Wrappers
  import opened Steps
  import opened ChatContext

  /** What a message template may read when it is rendered. */
  datatype MessageParams = MessageParams(
    userName: string,
    assistantSettings: AssistantSettings,
    selectedOption: Option<string>,
    customName: string)

  /** The templates of the table, one per `content` function. */
  datatype Template =
    | Welcome | Introduction | PersonalityOffer | ModeQuestion
    | ModeAnswer | GenderQuestion
    | GenderAnswer | ToneQuestion
    | ToneAnswer | NamePresentation | NameQuestion
    | NameAnswer | NameConfirmation

  datatype MessageConfig = MessageConfig(content: Template, role: Role, isLastMessage: bool)

  /**
   `assistantMessages[step]`. A message is flagged as last exactly when it ends a run of
   messages from one speaker, which is where the chat shows the avatar and the bubble tail.
   */
  function Messages(step: SetupStep): (entry: seq<MessageConfig>)
    ensures entry != [] && entry[|entry| - 1].isLastMessage
    ensures entry[0].role == User <==> step != Mode
    ensures forall i :: 0 <= i < |entry| ==>
      (entry[i].isLastMessage <==> i == |entry| - 1 || entry[i].role != entry[i + 1].role)
  {
    match step
    case Mode => [
      MessageConfig(Welcome, Assistant, false),
      MessageConfig(Introduction, Assistant, false),
      MessageConfig(PersonalityOffer, Assistant, false),
      MessageConfig(ModeQuestion, Assistant, true)]
    case Gender => [
      MessageConfig(ModeAnswer, User, true),
      MessageConfig(GenderQuestion, Assistant, true)]
    case Tone => [
      MessageConfig(GenderAnswer, User, true),
      MessageConfig(ToneQuestion, Assistant, true)]
    case Name => [
      MessageConfig(ToneAnswer, User, true),
      MessageConfig(NamePresentation, Assistant, false),
      MessageConfig(NameQuestion, Assistant, true)]
    case Final => [
      MessageConfig(NameAnswer, User, true),
      MessageConfig(NameConfirmation, Assistant, true)]
  }

  /** The name the final step settles on: the custom name when the custom option was chosen, the settings' name otherwise. */
  function ChosenName(p: MessageParams): string
  {
    if p.selectedOption == Some("custom") then p.customName else p.assistantSettings.name
  }

  /** The assistant lines that do not depend on the parameters. */
  const IntroductionText := "Je serai votre assistant personnel. Mon rôle est de vous aider à collecter et organiser vos souvenirs comme jamais auparavant."
  const PersonalityOfferText := "Vous pouvez choisir ma personnalité, ce qui me permettra de vous aider au mieux tout en rendant votre expérience authentique et agréable."
  const ModeQuestionText := "Que voulez-vous faire ?"
  const GenderQuestionText := "D'abord, choisissez votre genre."
  const ToneQuestionText := "Maintenant, quelle tonalité préférez-vous pour nos échanges?"
  const NamePresentationText := "Parfait ! Il ne reste plus qu'à me choisir un nom. Comme ma fonction est la Sauvegarde et l'Archivage de la Mémoire, on m'a temporairement baptisée Sam."
  const NameQuestionText := "Souhaitez-vous changer mon nom ?"

  const ConfirmationPrefix := "Mon nom est donc: "

  /** The greeting the final confirmation ends with. */
  function Greeting(userName: string): string
  {
    "Enchanté " + userName + " !"
  }

  /** The label of the gender as the user's answer; out-of-type values fall back to "". */
  function GenderLabel(settings: AssistantSettings): (text: string)
    ensures text == "" <==> !IsGenderValue(settings.gender)
  {
    if settings.gender == "masculine" then "Masculin"
    else if settings.gender == "feminine" then "Féminin"
    else if settings.gender == "neutral" then "Neutre"
    else ""
  }

  /** The label of the tone as the user's answer, agreeing with a feminine assistant for "cordial" and "formal". */
  function ToneLabel(settings: AssistantSettings): (text: string)
    ensures text == "" <==> !IsToneValue(settings.tone)
  {
    var feminine := settings.gender == "feminine";
    if settings.tone == "cordial" then (if feminine then "Cordiale" else "Cordial")
    else if settings.tone == "formal" then (if feminine then "Formelle" else "Formel")
    else if settings.tone == "humorous" then "Humoristique"
    else ""
  }

  /** The user's final answer: the custom name as typed, or acceptance of the settings' name. */
  function NameAnswerText(p: MessageParams): (answer: string)
    ensures answer == "" <==> p.selectedOption == Some("custom") && p.customName == ""
  {
    if p.selectedOption == Some("custom") then p.customName else p.assistantSettings.name + " me convient"
  }

  /** The `content` function of each template. */
  function Content(t: Template, p: MessageParams): (text: string)
    ensures t == GenderAnswer ==> (text == "" <==> !IsGenderValue(p.assistantSettings.gender))
    ensures t == ToneAnswer ==> (text == "" <==> !IsToneValue(p.assistantSettings.tone))
    ensures t == NameAnswer ==> (text == "" <==> p.selectedOption == Some("custom") && p.customName == "")
    ensures t != GenderAnswer && t != ToneAnswer && t != NameAnswer ==> text != ""
  {
    match t
    case Welcome => "Bonjour " + p.userName + " ! Bravo ! Votre compte a bien été créé."
    case Introduction => IntroductionText
    case PersonalityOffer => PersonalityOfferText
    case ModeQuestion => ModeQuestionText
    case ModeAnswer => if p.assistantSettings.mode == "default" then "Par défaut" else "Personnalisé"
    case GenderQuestion => GenderQuestionText
    case GenderAnswer => GenderLabel(p.assistantSettings)
    case ToneQuestion => ToneQuestionText
    case ToneAnswer => ToneLabel(p.assistantSettings)
    case NamePresentation => NamePresentationText
    case NameQuestion => NameQuestionText
    case NameAnswer => NameAnswerText(p)
    case NameConfirmation => ConfirmationPrefix + ChosenName(p) + "." + "\n" + Greeting(p.userName)
  }

  /** The `mode` entry is four assistant messages, of which only the last is flagged as last. */
  lemma ModeEntryShape()
    ensures |Messages(Mode)| == 4
    ensures forall i :: 0 <= i < 4 ==> Messages(Mode)[i].role == Assistant
    ensures forall i :: 0 <= i < 4 ==> (Messages(Mode)[i].isLastMessage <==> i == 3)
  {
  }

  /**
   Every entry ends with a message flagged as last; every entry but `mode` opens with the
   user's answer and continues with assistant messages only.
   */
  lemma EntriesAlternateSpeakers(step: SetupStep)
    ensures Messages(step) != [] && Messages(step)[|Messages(step)| - 1].isLastMessage
    ensures step != Mode ==> Messages(step)[0].role == User
    ensures forall i :: (if step == Mode then 0 else 1) <= i < |Messages(step)| ==> Messages(step)[i].role == Assistant
  {
  }

  /** The answer recorded for the `mode` step says "Par défaut" exactly when the mode is default, and "Personnalisé" otherwise. */
  lemma ModeAnswerMatchesMode(p: MessageParams)
    ensures Content(ModeAnswer, p) == "Par défaut" <==> p.assistantSettings.mode == "default"
    ensures Content(ModeAnswer, p) == "Personnalisé" <==> p.assistantSettings.mode != "default"
    ensures Messages(Gender)[0] == MessageConfig(ModeAnswer, User, true)
  {
  }

  /** The answer recorded for the `gender` step names the gender, and distinct valid genders get distinct labels. */
  lemma GenderAnswerMatchesGender(p: MessageParams, q: MessageParams)
    ensures Messages(Tone)[0] == MessageConfig(GenderAnswer, User, true)
    ensures p.assistantSettings.gender == "masculine" ==> Content(GenderAnswer, p) == "Masculin"
    ensures p.assistantSettings.gender == "feminine" ==> Content(GenderAnswer, p) == "Féminin"
    ensures p.assistantSettings.gender == "neutral" ==> Content(GenderAnswer, p) == "Neutre"
    ensures Content(GenderAnswer, p) == "" <==> !IsGenderValue(p.assistantSettings.gender)
    ensures IsGenderValue(p.assistantSettings.gender) && Content(GenderAnswer, p) == Content(GenderAnswer, q) ==>
      p.assistantSettings.gender == q.assistantSettings.gender
  {
  }

  /**
   The answer recorded for the `tone` step takes the feminine form ("Cordiale", "Formelle")
   exactly when the assistant is feminine and the tone is cordial or formal; "Humoristique" is
   the same whatever the gender; and the label never confuses two valid tones.
   */
  lemma ToneAnswerAgreesWithGender(p: MessageParams, gender: string)
    ensures Messages(Name)[0] == MessageConfig(ToneAnswer, User, true)
    ensures var answer := Content(ToneAnswer, p);
      (answer == "Cordiale" || answer == "Formelle") <==>
        p.assistantSettings.gender == "feminine" && (p.assistantSettings.tone == "cordial" || p.assistantSettings.tone == "formal")
    ensures p.assistantSettings.tone == "humorous" ==>
      Content(ToneAnswer, p) == "Humoristique" == Content(ToneAnswer, p.(assistantSettings := p.assistantSettings.(gender := gender)))
    ensures Content(ToneAnswer, p) == "" <==> !IsToneValue(p.assistantSettings.tone)
  {
  }

  lemma ToneAnswerIdentifiesTone(p: MessageParams, q: MessageParams)
    requires IsToneValue(p.assistantSettings.tone)
    requires Content(ToneAnswer, p) == Content(ToneAnswer, q)
    ensures p.assistantSettings.tone == q.assistantSettings.tone
  {
  }

  /**
   The final answer is the custom name as typed when the custom option was chosen, and the
   settings' name followed by " me convient" otherwise; either way it starts with the chosen name.
   */
  lemma NameAnswerNamesChosenName(p: MessageParams)
    ensures Messages(Final)[0] == MessageConfig(NameAnswer, User, true)
    ensures p.selectedOption == Some("custom") ==> Content(NameAnswer, p) == p.customName
    ensures p.selectedOption != Some("custom") ==> Content(NameAnswer, p) == p.assistantSettings.name + " me convient"
    ensures |ChosenName(p)| <= |Content(NameAnswer, p)| && Content(NameAnswer, p)[..|ChosenName(p)|] == ChosenName(p)
  {
  }

  /**
   The assistant's confirmation repeats the name the user's final answer used, right after
   "Mon nom est donc: ", and ends by greeting the user by name.
   */
  lemma ConfirmationRepeatsName(p: MessageParams)
    ensures Messages(Final)[1] == MessageConfig(NameConfirmation, Assistant, true)
    ensures var c, n, k := Content(NameConfirmation, p), ChosenName(p), |ConfirmationPrefix|;
      && k + |n| <= |c| && c[..k] == ConfirmationPrefix && c[k..k + |n|] == n
      && Content(NameAnswer, p)[..|n|] == n
    ensures var c, g := Content(NameConfirmation, p), Greeting(p.userName);
      |g| <= |c| && c[|c| - |g|..] == g
  {
    NameAnswerNamesChosenName(p);
    var n := ChosenName(p);
    var c := Content(NameConfirmation, p);
    assert c == ConfirmationPrefix + (n + ("." + "\n" + Greeting(p.userName)));
  }
}

=== FILE: chat_context.dfy ===
/**
 The chat context: the assistant settings, the transient state of the setup wizard and the
 message log, with every handler written as one atomic transition from the current state
 to the next. Message ids and timestamps come from the clock and a random generator in the
 application; here the caller supplies them.
 */
module ChatContext {
  import opened Wrappers
  import opened Sequences
  import opened Steps
  import Text

  datatype Role = User | Assistant

  /**
   The persona being configured. `mode`, `gender` and `tone` are kept as strings because the
   validation handler stores the selected option in them unchecked; `WellTyped` says when they
   hold one of the values their declared types allow.
   */
  datatype AssistantSettings = AssistantSettings(mode: string, gender: string, tone: string, name: string)

  /** `Partial<AssistantSettings>`: the fields a settings update overwrites. */
  datatype SettingsPatch = SettingsPatch(mode: Option<string>, gender: Option<string>, tone: Option<string>, name: Option<string>)

  /** One entry of the log; `step` ties it to the wizard step that produced it. */
  datatype Message = Message(
    id: string,
    content: string,
    role: Role,
    timestamp: int,
    step: Option<SetupStep>,
    isLastMessage: Option<bool>,
    videoUri: Option<string>)

  datatype AssistantSetupState = AssistantSetupState(
    currentStep: SetupStep,
    selectedOption: Option<string>,
    isCustomName: bool,
    customName: string,
    selectedName: string)

  datatype ChatState = ChatState(messages: seq<Message>, assistantSettings: AssistantSettings, assistantSetup: AssistantSetupState)

  const DefaultName := "Sam"

  const DefaultAssistantSettings := AssistantSettings("personalized", "neutral", "formal", DefaultName)

  /** The settings the "default" choice at the `mode` step installs. */
  const DefaultModePatch := SettingsPatch(Some("default"), Some("neutral"), Some("cordial"), Some(DefaultName))

  const InitialSetup := AssistantSetupState(Mode, None, false, "", "")

  /** The state the provider starts from: an empty log, the default settings, the wizard at `mode`. */
  const InitialState := ChatState([], DefaultAssistantSettings, InitialSetup)

  predicate IsModeValue(s: string) { s == "default" || s == "personalized" }

  predicate IsGenderValue(s: string) { s == "feminine" || s == "masculine" || s == "neutral" }

  predicate IsToneValue(s: string) { s == "formal" || s == "cordial" || s == "humorous" }

  /** Every enumerated field holds a value of its declared union type. */
  predicate WellTyped(settings: AssistantSettings)
  {
    IsModeValue(settings.mode) && IsGenderValue(settings.gender) && IsToneValue(settings.tone)
  }

  /** The options that, stored by the validation handler, respect the settings' declared types. */
  predicate ValidOption(step: SetupStep, option: string)
  {
    match step
    case Mode => IsModeValue(option)
    case Gender => IsGenderValue(option)
    case Tone => IsToneValue(option)
    case Name => true
    case Final => true
  }

  /** JavaScript truthiness of a `string | null`: present and not empty. */
  predicate IsTruthy(option: Option<string>)
  {
    option.Some? && option.value != ""
  }

  /** A message survives rewinding to `target` when it has no step or its step does not come after `target`. */
  predicate KeptAt(target: SetupStep, m: Message)
  {
    m.step.None? || NotAfter(m.step.value, target)
  }

  /** `{ ...prev, ...patch }`: the fields the patch names are overwritten, the others keep their values. */
  function Merge(prev: AssistantSettings, patch: SettingsPatch): (r: AssistantSettings)
    ensures patch.mode.None? ==> r.mode == prev.mode
    ensures patch.gender.None? ==> r.gender == prev.gender
    ensures patch.tone.None? ==> r.tone == prev.tone
    ensures patch.name.None? ==> r.name == prev.name
    ensures patch.mode.Some? ==> r.mode == patch.mode.value
    ensures patch.gender.Some? ==> r.gender == patch.gender.value
    ensures patch.tone.Some? ==> r.tone == patch.tone.value
    ensures patch.name.Some? ==> r.name == patch.name.value
  {
    AssistantSettings(
      patch.mode.GetOr(prev.mode),
      patch.gender.GetOr(prev.gender),
      patch.tone.GetOr(prev.tone),
      patch.name.GetOr(prev.name))
  }

  /**
   `{ [step]: option } as any`: the patch that writes the option into the settings field named
   like the step. `final` names no field of the settings, so its patch changes nothing.
   */
  function StepPatch(step: SetupStep, option: string): (p: SettingsPatch)
    ensures p.mode == (if step == Mode then Some(option) else None)
    ensures p.gender == (if step == Gender then Some(option) else None)
    ensures p.tone == (if step == Tone then Some(option) else None)
    ensures p.name == (if step == Name then Some(option) else None)
    ensures step == Final <==> p == SettingsPatch(None, None, None, None)
  {
    match step
    case Mode => SettingsPatch(Some(option), None, None, None)
    case Gender => SettingsPatch(None, Some(option), None, None)
    case Tone => SettingsPatch(None, None, Some(option), None)
    case Name => SettingsPatch(None, None, None, Some(option))
    case Final => SettingsPatch(None, None, None, None)
  }

  /** `addMessage`: appends one entry built from the arguments and leaves the rest of the state alone. */
  function AddMessage(
    st: ChatState, content: string, role: Role, step: Option<SetupStep>,
    isLastMessage: Option<bool>, videoUri: Option<string>, id: string, timestamp: int): (r: ChatState)
    ensures |r.messages| == |st.messages| + 1
    ensures r.messages[..|st.messages|] == st.messages
    ensures var m := r.messages[|st.messages|];
      && m.content == content && m.role == role && m.step == step
      && m.isLastMessage == isLastMessage && m.videoUri == videoUri
      && m.id == id && m.timestamp == timestamp
    ensures r.assistantSettings == st.assistantSettings && r.assistantSetup == st.assistantSetup
  {
    st.(messages := st.messages + [Message(id, content, role, timestamp, step, isLastMessage, videoUri)])
  }

  /** `clearMessages`: empties the log and nothing else. */
  function ClearMessages(st: ChatState): (r: ChatState)
    ensures r.messages == []
    ensures r.assistantSettings == st.assistantSettings && r.assistantSetup == st.assistantSetup
  {
    st.(messages := [])
  }

  /** `updateAssistantSettings`: merges the patch into the settings; the log and the wizard are untouched. */
  function UpdateAssistantSettings(st: ChatState, patch: SettingsPatch): (r: ChatState)
    ensures r.messages == st.messages && r.assistantSetup == st.assistantSetup
    ensures r.assistantSettings == Merge(st.assistantSettings, patch)
  {
    st.(assistantSettings := Merge(st.assistantSettings, patch))
  }

  /** `handleOptionSelect`: records the option the user picked, changing no other field. */
  function HandleOptionSelect(st: ChatState, value: string): (r: ChatState)
    ensures r.assistantSetup.selectedOption == Some(value)
    ensures r.messages == st.messages && r.assistantSettings == st.assistantSettings
    ensures var a, b := st.assistantSetup, r.assistantSetup;
      && b.currentStep == a.currentStep && b.isCustomName == a.isCustomName
      && b.customName == a.customName && b.selectedName == a.selectedName
  {
    st.(assistantSetup := st.assistantSetup.(selectedOption := Some(value)))
  }

  /**
   `handleValidateChoice`: commits the selected option for the current step.
   Nothing happens without a (non-empty) selection. "default" at `mode` installs the default
   persona and jumps to `final`. At `name`, "default" keeps the name Sam and any other option
   opens the custom-name entry without moving on. Otherwise the option is stored in the field
   named by the step and the wizard advances to the next step. The log is never touched and
   the wizard never moves backwards.
   */
  function HandleValidateChoice(st: ChatState): (r: ChatState)
    ensures r.messages == st.messages
    ensures NotAfter(st.assistantSetup.currentStep, r.assistantSetup.currentStep)
    ensures !IsTruthy(st.assistantSetup.selectedOption) ==> r == st
    ensures var a, option := st.assistantSetup, st.assistantSetup.selectedOption;
      IsTruthy(option) && a.currentStep == Mode && option.value == "default" ==>
        && r.assistantSettings == AssistantSettings("default", "neutral", "cordial", "Sam")
        && r.assistantSetup == a.(currentStep := Final, selectedOption := None)
    ensures var a, option := st.assistantSetup, st.assistantSetup.selectedOption;
      IsTruthy(option) && a.currentStep == Name && option.value != "default" ==>
        r == st.(assistantSetup := a.(isCustomName := true))
    ensures var a, option := st.assistantSetup, st.assistantSetup.selectedOption;
      IsTruthy(option) && !(a.currentStep == Mode && option.value == "default")
      && !(a.currentStep == Name && option.value != "default") ==>
        && r.assistantSetup.selectedOption.None?
        && r.assistantSetup.currentStep == NextStep(a.currentStep)
        && (a.currentStep != Final ==> Rank(r.assistantSetup.currentStep) == Rank(a.currentStep) + 1)
        && (a.currentStep == Final ==> r.assistantSetup.currentStep == Final && r.assistantSettings == st.assistantSettings)
        && r.assistantSetup.isCustomName == a.isCustomName
        && r.assistantSetup.customName == a.customName
        && (a.currentStep != Name ==>
              && r.assistantSettings == Merge(st.assistantSettings, StepPatch(a.currentStep, option.value))
              && r.assistantSetup.selectedName == a.selectedName)
        && (a.currentStep == Name ==>
              && r.assistantSettings == st.assistantSettings.(name := DefaultName)
              && r.assistantSetup.selectedName == DefaultName)
  {
    var setup := st.assistantSetup;
    var option := setup.selectedOption;
    if !IsTruthy(option) then st
    else if setup.currentStep == Mode && option.value == "default" then
      st.(assistantSettings := Merge(st.assistantSettings, DefaultModePatch),
          assistantSetup := setup.(currentStep := Final, selectedOption := None))
    else if setup.currentStep == Name && option.value != "default" then
      st.(assistantSetup := setup.(isCustomName := true))
    else
      var (settings, selectedName) :=
        if setup.currentStep == Name then
          (Merge(st.assistantSettings, SettingsPatch(None, None, None, Some(DefaultName))), DefaultName)
        else
          (Merge(st.assistantSettings, StepPatch(setup.currentStep, option.value)), setup.selectedName);
      NextStepFollowsStepOrder(setup.currentStep);
      st.(assistantSettings := settings,
          assistantSetup := setup.(selectedName := selectedName, currentStep := NextStep(setup.currentStep), selectedOption := None))
  }

  /**
   `handleValidateCustomName`: a blank custom name is ignored. Otherwise the name without its
   surrounding whitespace becomes both the selected name and the assistant's name, and the
   wizard leaves the custom-name entry for `final`.
   */
  function HandleValidateCustomName(st: ChatState): (r: ChatState)
    ensures r.messages == st.messages
    ensures Text.IsBlank(st.assistantSetup.customName) ==> r == st
    ensures !Text.IsBlank(st.assistantSetup.customName) ==>
      var name := r.assistantSettings.name;
      && name != [] && !Text.IsWhitespace(name[0]) && !Text.IsWhitespace(name[|name| - 1])
      && name == Text.Trim(st.assistantSetup.customName)
      && r.assistantSetup.selectedName == name
      && r.assistantSetup.currentStep == Final
      && !r.assistantSetup.isCustomName
      && r.assistantSetup.selectedOption == st.assistantSetup.selectedOption
      && r.assistantSetup.customName == st.assistantSetup.customName
      && r.assistantSettings == st.assistantSettings.(name := name)
  {
    var name := Text.Trim(st.assistantSetup.customName);
    if name == "" then st
    else
      st.(assistantSetup := st.assistantSetup.(selectedName := name, currentStep := Final, isCustomName := false),
          assistantSettings := Merge(st.assistantSettings, SettingsPatch(None, None, None, Some(name))))
  }

  /** `resetAssistantSetup`: restarts the wizard at `mode`; the settings and the log are kept. */
  function ResetAssistantSetup(st: ChatState): (r: ChatState)
    ensures r.assistantSetup.currentStep == Mode && r.assistantSetup.selectedOption.None?
    ensures !r.assistantSetup.isCustomName && r.assistantSetup.customName == "" && r.assistantSetup.selectedName == ""
    ensures r.messages == st.messages && r.assistantSettings == st.assistantSettings
  {
    st.(assistantSetup := InitialSetup)
  }

  /** `setCustomName`: records the text typed as the custom name, changing no other field. */
  function SetCustomName(st: ChatState, name: string): (r: ChatState)
    ensures r.assistantSetup.customName == name
    ensures r.messages == st.messages && r.assistantSettings == st.assistantSettings
    ensures var a, b := st.assistantSetup, r.assistantSetup;
      && b.currentStep == a.currentStep && b.isCustomName == a.isCustomName
      && b.selectedOption == a.selectedOption && b.selectedName == a.selectedName
  {
    st.(assistantSetup := st.assistantSetup.(customName := name))
  }

  /** The log after rewinding to `target`: `messages.filter` with `KeptAt`. */
  function PruneAfter(messages: seq<Message>, target: SetupStep): (r: seq<Message>)
    ensures forall i :: 0 <= i < |r| ==> KeptAt(target, r[i]) && r[i] in messages
    ensures forall i :: 0 <= i < |messages| && KeptAt(target, messages[i]) ==> messages[i] in r
  {
    Filter(messages, m => KeptAt(target, m))
  }

  /**
   `goToStep`: rewinds the wizard to `target`. The pending choice and the custom-name entry
   are cleared, the selected name survives only when rewinding to `name` or `final`, and every
   logged message whose step comes after `target` is removed.
   */
  function GoToStep(st: ChatState, target: SetupStep): (r: ChatState)
    ensures r.assistantSetup.currentStep == target && r.assistantSetup.selectedOption.None?
    ensures !r.assistantSetup.isCustomName && r.assistantSetup.customName == ""
    ensures target == Name || target == Final ==> r.assistantSetup.selectedName == st.assistantSetup.selectedName
    ensures target != Name && target != Final ==> r.assistantSetup.selectedName == ""
    ensures r.assistantSettings == st.assistantSettings
    // What the pruned log keeps, and in which order: PruneAfterIsSubsequence, PruneAfterUnique.
    ensures r.messages == PruneAfter(st.messages, target)
  {
    var setup := st.assistantSetup;
    st.(assistantSetup := setup.(
          currentStep := target,
          selectedOption := None,
          isCustomName := false,
          customName := "",
          selectedName := if target == Name || target == Final then setup.selectedName else ""),
        messages := PruneAfter(st.messages, target))
  }

  /** `{ ...p, ...q }`: the patch that applies `p` and then `q`. */
  function Combine(p: SettingsPatch, q: SettingsPatch): SettingsPatch
  {
    SettingsPatch(
      if q.mode.Some? then q.mode else p.mode,
      if q.gender.Some? then q.gender else p.gender,
      if q.tone.Some? then q.tone else p.tone,
      if q.name.Some? then q.name else p.name)
  }

  /** An empty update leaves the settings as they are. */
  lemma MergeEmptyPatch(settings: AssistantSettings)
    ensures Merge(settings, SettingsPatch(None, None, None, None)) == settings
  {
  }

  /** Two successive updates are one update with the combined patch, and repeating an update changes nothing. */
  lemma MergeComposes(settings: AssistantSettings, p: SettingsPatch, q: SettingsPatch)
    ensures Merge(Merge(settings, p), q) == Merge(settings, Combine(p, q))
    ensures Merge(Merge(settings, p), p) == Merge(settings, p)
  {
  }

  /** A patch naming every field fixes the settings whatever they were before. */
  lemma MergeFullPatch(a: AssistantSettings, b: AssistantSettings, p: SettingsPatch)
    requires p.mode.Some? && p.gender.Some? && p.tone.Some? && p.name.Some?
    ensures Merge(a, p) == Merge(b, p)
  {
  }

  /**
   The pruned log is a subsequence of the original (the survivors keep their relative order)
   holding one entry per message kept at `target`.
   */
  lemma {:induction false} PruneAfterIsSubsequence(messages: seq<Message>, target: SetupStep)
    ensures IsSubsequence(PruneAfter(messages, target), messages)
    ensures All(PruneAfter(messages, target), m => KeptAt(target, m))
    ensures |PruneAfter(messages, target)| == Count(messages, m => KeptAt(target, m))
  {
    FilterIsSubsequence(messages, m => KeptAt(target, m));
  }

  /** Conversely, any subsequence of the log that keeps every message kept at `target`, and only those, is the pruned log. */
  lemma {:induction false} PruneAfterUnique(messages: seq<Message>, target: SetupStep, r: seq<Message>)
    requires IsSubsequence(r, messages)
    requires All(r, m => KeptAt(target, m))
    requires |r| == Count(messages, m => KeptAt(target, m))
    ensures r == PruneAfter(messages, target)
  {
    FilterCharacterised(messages, m => KeptAt(target, m), r);
  }

  /**
   Rewinding to `t1` and then to a step `t2` no later than `t1` is the same as rewinding to
   `t2` directly; in particular rewinding twice to the same step is rewinding once.
   */
  lemma {:induction false} GoToStepComposes(st: ChatState, t1: SetupStep, t2: SetupStep)
    requires NotAfter(t2, t1)
    ensures GoToStep(GoToStep(st, t1), t2) == GoToStep(st, t2)
  {
    FilterNarrowing(st.messages, m => KeptAt(t1, m), m => KeptAt(t2, m));
  }

  lemma {:induction false} GoToStepIdempotent(st: ChatState, target: SetupStep)
    ensures GoToStep(GoToStep(st, target), target) == GoToStep(st, target)
  {
    GoToStepComposes(st, target, target);
  }

  /** Rewinding to `final` removes no message, since no step comes after it. */
  lemma {:induction false} GoToFinalKeepsLog(st: ChatState)
    ensures GoToStep(st, Final).messages == st.messages
  {
    FilterKeepsAll(st.messages, m => KeptAt(Final, m));
  }

  /**
   The unchecked store of the selected option keeps the settings well typed as long as the
   option is one the step offers.
   */
  lemma ValidateChoiceKeepsWellTyped(st: ChatState)
    requires WellTyped(st.assistantSettings)
    requires IsTruthy(st.assistantSetup.selectedOption) ==>
      ValidOption(st.assistantSetup.currentStep, st.assistantSetup.selectedOption.value)
    ensures WellTyped(HandleValidateChoice(st).assistantSettings)
  {
  }

  /** Without that restriction the store can leave an out-of-type value in the settings. */
  lemma ValidateChoiceCanBreakWellTyped()
    ensures var st := HandleOptionSelect(InitialState.(assistantSetup := InitialSetup.(currentStep := Gender)), "robot");
      !WellTyped(HandleValidateChoice(st).assistantSettings)
  {
  }
}

=== FILE: sequences.dfy ===
/**
 Sequence helpers that mirror the two JavaScript array builtins the wizard relies on:
 `Array.prototype.indexOf` and `Array.prototype.filter`, together with the facts
 about them that the wizard's properties need.
 */
module Sequences {

  /** `xs.indexOf(x)`: the first position holding `x`, or -1 when there is none. */
  function IndexOf<T(==)>(xs: seq<T>, x: T): (i: int)
    ensures -1 <= i < |xs|
    ensures i == -1 <==> x !in xs
    ensures 0 <= i ==> xs[i] == x
    ensures forall j :: 0 <= j < i ==> xs[j] != x
  {
    if xs == [] then -1
    else if xs[0] == x then 0
    else
      var k := IndexOf(xs[1..], x);
      if k == -1 then -1 else k + 1
  }

  /** `xs.filter(keep)`: the elements satisfying `keep`, in their original order. */
  function Filter<T>(xs: seq<T>, keep: T -> bool): (r: seq<T>)
    ensures |r| <= |xs|
    ensures forall i :: 0 <= i < |r| ==> r[i] in xs && keep(r[i])
    ensures forall i :: 0 <= i < |xs| && keep(xs[i]) ==> xs[i] in r
  {
    if xs == [] then []
    else if keep(xs[0]) then [xs[0]] + Filter(xs[1..], keep)
    else Filter(xs[1..], keep)
  }

  /** How many elements of `xs` satisfy `keep`. */
  function Count<T>(xs: seq<T>, keep: T -> bool): nat
  {
    if xs == [] then 0
    else (if keep(xs[0]) then 1 else 0) + Count(xs[1..], keep)
  }

  /** `a` can be obtained from `b` by deleting elements, keeping the order of the rest. */
  ghost predicate IsSubsequence<T>(a: seq<T>, b: seq<T>)
    decreases |b|
  {
    if a == [] then true
    else if b == [] then false
    else if a[0] == b[0] then IsSubsequence(a[1..], b[1..])
    else IsSubsequence(a, b[1..])
  }

  /** Every element of `xs` satisfies `keep`. */
  ghost predicate All<T>(xs: seq<T>, keep: T -> bool)
  {
    forall i :: 0 <= i < |xs| ==> keep(xs[i])
  }

  /** What `filter` drops is gone, what it keeps is in the original order. */
  lemma {:induction false} FilterIsSubsequence<T>(xs: seq<T>, keep: T -> bool)
    ensures IsSubsequence(Filter(xs, keep), xs)
    ensures All(Filter(xs, keep), keep)
    ensures |Filter(xs, keep)| == Count(xs, keep)
  {
    if xs != [] {
      FilterIsSubsequence(xs[1..], keep);
      SubsequenceOfTail(Filter(xs[1..], keep), xs);
    }
  }

  /** A subsequence of the tail is a subsequence of the whole. */
  lemma {:induction false} SubsequenceOfTail<T>(a: seq<T>, b: seq<T>)
    requires b != []
    requires IsSubsequence(a, b[1..])
    ensures IsSubsequence(a, b)
    decreases |b|, 0
  {
    if a != [] && a[0] == b[0] {
      SubsequenceDropHead(a, b[1..]);
    }
  }

  /** Dropping the first element of a subsequence keeps it a subsequence. */
  lemma {:induction false} SubsequenceDropHead<T>(a: seq<T>, b: seq<T>)
    requires a != []
    requires IsSubsequence(a, b)
    ensures IsSubsequence(a[1..], b)
    decreases |b|, 1
  {
    assert b != [];
    if a[0] == b[0] {
      SubsequenceOfTail(a[1..], b);
    } else {
      SubsequenceDropHead(a, b[1..]);
      SubsequenceOfTail(a[1..], b);
    }
  }

  /** A subsequence of `b` all of whose elements satisfy `keep` has at most `Count(b, keep)` elements. */
  lemma {:induction false} SubsequenceLengthBound<T>(a: seq<T>, b: seq<T>, keep: T -> bool)
    requires IsSubsequence(a, b)
    requires All(a, keep)
    ensures |a| <= Count(b, keep)
    decreases |b|
  {
    if a != [] {
      assert b != [];
      if a[0] == b[0] {
        assert All(a[1..], keep) by {
          forall i | 0 <= i < |a[1..]| ensures keep(a[1..][i]) { assert a[1..][i] == a[i + 1]; }
        }
        SubsequenceLengthBound(a[1..], b[1..], keep);
        assert keep(a[0]);
      } else {
        SubsequenceLengthBound(a, b[1..], keep);
      }
    }
  }

  /**
   `Filter` is the only subsequence of `xs` that keeps exactly the elements satisfying `keep`:
   any subsequence whose elements all satisfy `keep` and that is as long as the number of such
   elements is `Filter(xs, keep)`.
   */
  lemma {:induction false} FilterCharacterised<T>(xs: seq<T>, keep: T -> bool, r: seq<T>)
    requires IsSubsequence(r, xs)
    requires All(r, keep)
    requires |r| == Count(xs, keep)
    ensures r == Filter(xs, keep)
    decreases |xs|
  {
    if xs != [] {
      var tail := xs[1..];
      if keep(xs[0]) {
        assert r != [];
        if r[0] == xs[0] {
          assert All(r[1..], keep) by {
            forall i | 0 <= i < |r[1..]| ensures keep(r[1..][i]) { assert r[1..][i] == r[i + 1]; }
          }
          FilterCharacterised(tail, keep, r[1..]);
          assert r == [r[0]] + r[1..];
        } else {
          SubsequenceLengthBound(r, tail, keep);
          assert false;
        }
      } else {
        if r != [] {
          assert r[0] != xs[0] by { assert keep(r[0]); }
        }
        assert IsSubsequence(r, tail);
        FilterCharacterised(tail, keep, r);
      }
    }
  }

  /** Filtering twice by the same predicate is filtering once. */
  lemma {:induction false} FilterIdempotent<T>(xs: seq<T>, keep: T -> bool)
    ensures Filter(Filter(xs, keep), keep) == Filter(xs, keep)
  {
    if xs != [] {
      FilterIdempotent(xs[1..], keep);
    }
  }

  /** Filtering by a weaker predicate, then a stronger one, is filtering by the stronger one alone. */
  lemma {:induction false} FilterNarrowing<T>(xs: seq<T>, weak: T -> bool, strong: T -> bool)
    requires forall x :: strong(x) ==> weak(x)
    ensures Filter(Filter(xs, weak), strong) == Filter(xs, strong)
  {
    if xs != [] {
      FilterNarrowing(xs[1..], weak, strong);
    }
  }

  /** `filter` with a predicate that holds everywhere leaves the sequence as it is. */
  lemma {:induction false} FilterKeepsAll<T>(xs: seq<T>, keep: T -> bool)
    requires All(xs, keep)
    ensures Filter(xs, keep) == xs
  {
    if xs != [] {
      assert All(xs[1..], keep) by {
        forall i | 0 <= i < |xs[1..]| ensures keep(xs[1..][i]) { assert xs[1..][i] == xs[i + 1]; }
      }
      FilterKeepsAll(xs[1..], keep);
      assert xs == [xs[0]] + xs[1..];
    }
  }
}

=== FILE: setup_flow.dfy ===
/**
 Runs of the chat context's handlers, as the screens issue them one user action at a time,
 and the properties that hold across whole runs: the wizard only moves forward unless it is
 rewound or reset, the log never holds a message from a step the wizard has not reached, and
 the three ways through the wizard end where the message table expects them to.
 */
module SetupFlow {
  import opened Wrappers
  import opened Steps
  import opened ChatContext
  import AssistantMessages
  import Text

  /** One call into the context's interface. */
  datatype Action =
    | Add(content: string, role: Role, step: Option<SetupStep>, isLastMessage: Option<bool>,
          videoUri: Option<string>, id: string, timestamp: int)
    | Clear
    | Update(patch: SettingsPatch)
    | Select(value: string)
    | ValidateChoice
    | ValidateCustomName
    | Reset
    | TypeCustomName(name: string)
    | Rewind(target: SetupStep)

  function Apply(st: ChatState, a: Action): ChatState
  {
    match a
    case Add(content, role, step, isLast, videoUri, id, timestamp) =>
      AddMessage(st, content, role, step, isLast, videoUri, id, timestamp)
    case Clear => ClearMessages(st)
    case Update(patch) => UpdateAssistantSettings(st, patch)
    case Select(value) => HandleOptionSelect(st, value)
    case ValidateChoice => HandleValidateChoice(st)
    case ValidateCustomName => HandleValidateCustomName(st)
    case Reset => ResetAssistantSetup(st)
    case TypeCustomName(name) => SetCustomName(st, name)
    case Rewind(target) => GoToStep(st, target)
  }

  function Run(st: ChatState, actions: seq<Action>): ChatState
    decreases |actions|
  {
    if actions == [] then st else Run(Apply(st, actions[0]), actions[1..])
  }

  /** Running a non-empty list of actions applies the first and runs the rest. */
  lemma RunCons(st: ChatState, a: Action, rest: seq<Action>)
    ensures Run(st, [a] + rest) == Run(Apply(st, a), rest)
  {
    assert ([a] + rest)[1..] == rest;
  }

  lemma RunTwo(st: ChatState, a: Action, b: Action)
    ensures Run(st, [a, b]) == Apply(Apply(st, a), b)
  {
    RunCons(st, a, [b]);
    RunCons(Apply(st, a), b, []);
    assert [a, b] == [a] + [b];
    assert [b] == [b] + [];
  }

  /** Picking an option and validating it, as the screens do on each step. */
  lemma ChooseAndValidate(st: ChatState, option: string)
    ensures Run(st, [Select(option), ValidateChoice]) == HandleValidateChoice(HandleOptionSelect(st, option))
  {
    RunTwo(st, Select(option), ValidateChoice);
  }

  /** Running two lists one after the other is running their concatenation. */
  lemma {:induction false} RunAppend(st: ChatState, xs: seq<Action>, ys: seq<Action>)
    ensures Run(st, xs + ys) == Run(Run(st, xs), ys)
    decreases |xs|
  {
    if xs == [] {
      assert xs + ys == ys;
    } else {
      assert (xs + ys)[1..] == xs[1..] + ys;
      RunAppend(Apply(st, xs[0]), xs[1..], ys);
    }
  }

  /** The actions that never send the wizard back: everything but a rewind or a reset. */
  predicate IsForward(a: Action)
  {
    !a.Rewind? && !a.Reset?
  }

  /** No logged message belongs to a step the wizard has not reached. */
  ghost predicate LogConsistent(st: ChatState)
  {
    forall i :: 0 <= i < |st.messages| && st.messages[i].step.Some? ==>
      NotAfter(st.messages[i].step.value, st.assistantSetup.currentStep)
  }

  /** An action that keeps the log consistent: no reset, and a new message is tagged at most with the current step. */
  predicate Admissible(st: ChatState, a: Action)
  {
    && !a.Reset?
    && (a.Add? && a.step.Some? ==> NotAfter(a.step.value, st.assistantSetup.currentStep))
  }

  ghost predicate AdmissibleRun(st: ChatState, actions: seq<Action>)
    decreases |actions|
  {
    actions == [] || (Admissible(st, actions[0]) && AdmissibleRun(Apply(st, actions[0]), actions[1..]))
  }

  /** A single forward action never moves the wizard to an earlier step. */
  lemma ForwardActionNeverRewinds(st: ChatState, a: Action)
    requires IsForward(a)
    ensures NotAfter(st.assistantSetup.currentStep, Apply(st, a).assistantSetup.currentStep)
  {
  }

  /** Along a run of forward actions the current step never moves back in the step order. */
  lemma {:induction false} ForwardRunNeverRewinds(st: ChatState, actions: seq<Action>)
    requires forall i :: 0 <= i < |actions| ==> IsForward(actions[i])
    ensures NotAfter(st.assistantSetup.currentStep, Run(st, actions).assistantSetup.currentStep)
    decreases |actions|
  {
    if actions != [] {
      ForwardActionNeverRewinds(st, actions[0]);
      ForwardRunNeverRewinds(Apply(st, actions[0]), actions[1..]);
    }
  }

  /** Each admissible action keeps the log consistent; a rewind restores consistency by pruning. */
  lemma ApplyKeepsLogConsistent(st: ChatState, a: Action)
    requires LogConsistent(st)
    requires Admissible(st, a)
    ensures LogConsistent(Apply(st, a))
  {
    match a
    case Add(content, role, step, isLast, videoUri, id, timestamp) =>
      AddKeepsLogConsistent(st, content, role, step, isLast, videoUri, id, timestamp);
    case ValidateChoice =>
      SameLogLaterStepKeepsConsistent(st, HandleValidateChoice(st));
    case ValidateCustomName =>
      SameLogLaterStepKeepsConsistent(st, HandleValidateCustomName(st));
    case Clear =>
    case Update(patch) =>
      SameLogLaterStepKeepsConsistent(st, UpdateAssistantSettings(st, patch));
    case Select(value) =>
      SameLogLaterStepKeepsConsistent(st, HandleOptionSelect(st, value));
    case TypeCustomName(name) =>
      SameLogLaterStepKeepsConsistent(st, SetCustomName(st, name));
    case Rewind(target) =>
      RewindMakesLogConsistent(st, target);
  }

  /** A transition that keeps the log and does not move the wizard back keeps the log consistent. */
  lemma SameLogLaterStepKeepsConsistent(st: ChatState, r: ChatState)
    requires LogConsistent(st)
    requires r.messages == st.messages
    requires NotAfter(st.assistantSetup.currentStep, r.assistantSetup.currentStep)
    ensures LogConsistent(r)
  {
  }

  lemma AddKeepsLogConsistent(
    st: ChatState, content: string, role: Role, step: Option<SetupStep>,
    isLast: Option<bool>, videoUri: Option<string>, id: string, timestamp: int)
    requires LogConsistent(st)
    requires step.Some? ==> NotAfter(step.value, st.assistantSetup.currentStep)
    ensures LogConsistent(AddMessage(st, content, role, step, isLast, videoUri, id, timestamp))
  {
    var r := AddMessage(st, content, role, step, isLast, videoUri, id, timestamp);
    forall i | 0 <= i < |r.messages| && r.messages[i].step.Some?
      ensures NotAfter(r.messages[i].step.value, r.assistantSetup.currentStep)
    {
      if i < |st.messages| {
        assert r.messages[i] == r.messages[..|st.messages|][i] == st.messages[i];
      }
    }
  }

  /** Along an admissible run the log stays consistent with the current step. */
  lemma {:induction false} RunKeepsLogConsistent(st: ChatState, actions: seq<Action>)
    requires LogConsistent(st)
    requires AdmissibleRun(st, actions)
    ensures LogConsistent(Run(st, actions))
    decreases |actions|
  {
    if actions != [] {
      ApplyKeepsLogConsistent(st, actions[0]);
      RunKeepsLogConsistent(Apply(st, actions[0]), actions[1..]);
    }
  }

  /** Whatever the log held, rewinding makes it consistent with the step rewound to. */
  lemma RewindMakesLogConsistent(st: ChatState, target: SetupStep)
    ensures LogConsistent(GoToStep(st, target))
  {
  }

  /** A reset keeps the log, so only a reset followed by clearing the log is sure to be consistent again. */
  lemma ResetThenClearIsConsistent(st: ChatState)
    ensures LogConsistent(ClearMessages(ResetAssistantSetup(st)))
    ensures ClearMessages(ResetAssistantSetup(st)).assistantSetup == InitialState.assistantSetup
  {
  }

  /**
   The parameters a template is rendered with, assumed to be read from the state after the
   handler ran; the rendering component itself is not modelled.
   */
  function ParamsOf(st: ChatState, userName: string): AssistantMessages.MessageParams
  {
    AssistantMessages.MessageParams(userName, st.assistantSettings, st.assistantSetup.selectedOption, st.assistantSetup.customName)
  }

  /**
   Choosing "default" at `mode` finishes the wizard at once with the default persona, and the
   final answer then accepts the name Sam.
   */
  lemma DefaultModeShortcut(st: ChatState, userName: string)
    requires st.assistantSetup.currentStep == Mode
    ensures var r := Run(st, [Select("default"), ValidateChoice]);
      && r.assistantSetup.currentStep == Final
      && r.assistantSettings == AssistantSettings("default", "neutral", "cordial", "Sam")
      && WellTyped(r.assistantSettings)
      && r.messages == st.messages
      && AssistantMessages.Content(AssistantMessages.NameAnswer, ParamsOf(r, userName)) == "Sam me convient"
  {
    RunTwo(st, Select("default"), ValidateChoice);
    var r := Run(st, [Select("default"), ValidateChoice]);
    var p := ParamsOf(r, userName);
    assert p.selectedOption == None && p.assistantSettings.name == "Sam";
    AssistantMessages.NameAnswerNamesChosenName(p);
  }

  /**
   The personalised path: from any state at `mode`, choosing "personalized", a valid gender, a
   valid tone and the default name ends the wizard at `final` with exactly those choices stored,
   well typed, whatever the settings held before; the log is untouched.
   */
  lemma PersonalizedPath(st: ChatState, gender: string, tone: string)
    requires st.assistantSetup.currentStep == Mode
    requires IsGenderValue(gender) && IsToneValue(tone)
    ensures var r := Run(st, [
        Select("personalized"), ValidateChoice, Select(gender), ValidateChoice,
        Select(tone), ValidateChoice, Select("default"), ValidateChoice]);
      && r.assistantSetup.currentStep == Final
      && r.assistantSettings == AssistantSettings("personalized", gender, tone, "Sam")
      && WellTyped(r.assistantSettings)
      && r.assistantSetup.selectedName == "Sam"
      && r.messages == st.messages
  {
    var phase1, phase2, phase3, phase4 :=
      [Select("personalized"), ValidateChoice], [Select(gender), ValidateChoice],
      [Select(tone), ValidateChoice], [Select("default"), ValidateChoice];
    ChooseAndValidate(st, "personalized");
    var s2 := Run(st, phase1);
    assert s2.assistantSetup.currentStep == Gender && s2.assistantSettings.mode == "personalized";
    ChooseAndValidate(s2, gender);
    var s4 := Run(s2, phase2);
    assert s4.assistantSetup.currentStep == Tone && s4.assistantSettings == s2.assistantSettings.(gender := gender);
    ChooseAndValidate(s4, tone);
    var s6 := Run(s4, phase3);
    assert s6.assistantSetup.currentStep == Name && s6.assistantSettings == s4.assistantSettings.(tone := tone);
    ChooseAndValidate(s6, "default");
    var r := Run(s6, phase4);
    assert r.assistantSettings == s6.assistantSettings.(name := "Sam");
    assert phase1 + phase2 + phase3 + phase4 == [
        Select("personalized"), ValidateChoice, Select(gender), ValidateChoice,
        Select(tone), ValidateChoice, Select("default"), ValidateChoice];
    RunAppend(st, phase1 + phase2 + phase3, phase4);
    RunAppend(st, phase1 + phase2, phase3);
    RunAppend(st, phase1, phase2);
  }

  /** At `name`, choosing anything but "default" opens the custom-name entry and stays at `name`. */
  lemma CustomNameEntry(st: ChatState, option: string)
    requires st.assistantSetup.currentStep == Name
    requires option != "" && option != "default"
    ensures var r := Run(st, [Select(option), ValidateChoice]);
      && r.assistantSetup.isCustomName && r.assistantSetup.currentStep == Name
      && r.assistantSetup.selectedOption == Some(option)
      && r.assistantSettings == st.assistantSettings
  {
    ChooseAndValidate(st, option);
  }

  /**
   The custom-name path: after choosing "custom" at `name`, a non-blank name typed and
   validated becomes the assistant's name without its surrounding whitespace, and the wizard
   reaches `final` with the custom choice and the typed text still recorded.
   */
  lemma CustomNamePath(st: ChatState, typed: string)
    requires st.assistantSetup.currentStep == Name
    requires !Text.IsBlank(typed)
    ensures var r := Run(st, [Select("custom"), ValidateChoice, TypeCustomName(typed), ValidateCustomName]);
      && r.assistantSetup.currentStep == Final
      && !r.assistantSetup.isCustomName
      && r.assistantSettings.name == r.assistantSetup.selectedName == Text.Trim(typed)
      && r.assistantSetup.selectedOption == Some("custom")
      && r.assistantSetup.customName == typed
  {
    var entry := [Select("custom"), ValidateChoice];
    var naming := [TypeCustomName(typed), ValidateCustomName];
    CustomNameEntry(st, "custom");
    var s2 := Run(st, entry);
    RunTwo(s2, TypeCustomName(typed), ValidateCustomName);
    var s3 := SetCustomName(s2, typed);
    assert s3.assistantSetup.customName == typed && s3.assistantSetup.selectedOption == Some("custom");
    assert entry + naming == [Select("custom"), ValidateChoice, TypeCustomName(typed), ValidateCustomName];
    RunAppend(st, entry, naming);
  }

  /**
   After the custom-name path the final answer quotes the name as typed, which is the stored
   name exactly when the typed text has no surrounding whitespace.
   */
  lemma CustomNameAnswer(st: ChatState, typed: string, userName: string)
    requires st.assistantSetup.currentStep == Name
    requires !Text.IsBlank(typed)
    ensures var r := Run(st, [Select("custom"), ValidateChoice, TypeCustomName(typed), ValidateCustomName]);
      && AssistantMessages.ChosenName(ParamsOf(r, userName)) == typed
      && AssistantMessages.Content(AssistantMessages.NameAnswer, ParamsOf(r, userName)) == typed
      && (AssistantMessages.ChosenName(ParamsOf(r, userName)) == r.assistantSettings.name <==> Text.Trim(typed) == typed)
  {
    CustomNamePath(st, typed);
    var r := Run(st, [Select("custom"), ValidateChoice, TypeCustomName(typed), ValidateCustomName]);
    AssistantMessages.NameAnswerNamesChosenName(ParamsOf(r, userName));
  }

  /** A blank custom name is refused: validating it leaves the wizard in the name entry. */
  lemma BlankCustomNameRefused(st: ChatState, typed: string)
    requires st.assistantSetup.currentStep == Name && st.assistantSetup.isCustomName
    requires Text.IsBlank(typed)
    ensures var r := Run(st, [TypeCustomName(typed), ValidateCustomName]);
      r.assistantSetup.currentStep == Name && r.assistantSetup.isCustomName && r.assistantSettings == st.assistantSettings
  {
    RunTwo(st, TypeCustomName(typed), ValidateCustomName);
  }
}

=== FILE: steps.dfy ===
/** The five steps of the assistant-setup wizard and their fixed order. */
module Steps {
  import opened Sequences

  datatype SetupStep = Mode | Gender | Tone | Name | Final

  /** `stepOrder`: the order in which the wizard visits its steps. */
  const StepOrder: seq<SetupStep> := [Mode, Gender, Tone, Name, Final]

  /** The position of `step` in `StepOrder`. */
  function Rank(step: SetupStep): (i: nat)
    ensures i < |StepOrder| && StepOrder[i] == step
  {
    match step
    case Mode => 0
    case Gender => 1
    case Tone => 2
    case Name => 3
    case Final => 4
  }

  /** `stepOrder.indexOf(step)` finds every step, at its `Rank`. */
  lemma RankIsIndexOf(step: SetupStep)
    ensures IndexOf(StepOrder, step) == Rank(step)
  {
  }

  /** The step after `step` as the validation switch computes it; `final` has no successor and stays put. */
  function NextStep(step: SetupStep): (next: SetupStep)
    ensures step != Final ==> Rank(next) == Rank(step) + 1
    ensures step == Final ==> next == Final
  {
    match step
    case Mode => Gender
    case Gender => Tone
    case Tone => Name
    case Name => Final
    case Final => Final
  }

  /** Step `a` comes no later than step `b` in `StepOrder`. */
  predicate NotAfter(a: SetupStep, b: SetupStep)
  {
    Rank(a) <= Rank(b)
  }

  /** Distinct steps have distinct positions, so comparing ranks compares steps. */
  lemma RankInjective(a: SetupStep, b: SetupStep)
    ensures Rank(a) == Rank(b) <==> a == b
  {
  }

  /** The switch agrees with `StepOrder`: each step but the last is followed by the next entry, the last by itself. */
  lemma NextStepFollowsStepOrder(step: SetupStep)
    ensures step != Final ==> Rank(NextStep(step)) == Rank(step) + 1
    ensures step == Final ==> NextStep(step) == Final
    ensures NextStep(step) == StepOrder[if Rank(step) + 1 < |StepOrder| then Rank(step) + 1 else Rank(step)]
  {
  }

  /** `NotAfter` is a total order on the steps. */
  lemma NotAfterIsTotalOrder(a: SetupStep, b: SetupStep, c: SetupStep)
    ensures NotAfter(a, a)
    ensures NotAfter(a, b) && NotAfter(b, a) ==> a == b
    ensures NotAfter(a, b) && NotAfter(b, c) ==> NotAfter(a, c)
    ensures NotAfter(a, b) || NotAfter(b, a)
  {
    RankInjective(a, b);
  }
}

=== FILE: text.dfy ===
/**
 `String.prototype.trim` as the wizard uses it on the custom assistant name.
 JavaScript removes, at both ends, every code point of the ECMAScript WhiteSpace and
 LineTerminator productions; all of them lie in the Basic Multilingual Plane, so a
 UTF-16 string and a `seq<char>` trim alike.
 */
module Text {

  /** ECMAScript WhiteSpace (TAB, VT, FF, ZWNBSP and the Unicode Zs category) and LineTerminator (LF, CR, LS, PS). */
  predicate IsWhitespace(c: char)
  {
    || c == '\t' || c == '\n' || c == '\U{000B}' || c == '\U{000C}' || c == '\r'
    || c == ' ' || c == '\U{00A0}' || c == '\U{1680}'
    || ('\U{2000}' <= c <= '\U{200A}')
    || c == '\U{2028}' || c == '\U{2029}' || c == '\U{202F}' || c == '\U{205F}'
    || c == '\U{3000}' || c == '\U{FEFF}'
  }

  /** The string is empty or made of whitespace only: exactly the strings whose trim is falsy. */
  ghost predicate IsBlank(s: string)
  {
    forall i :: 0 <= i < |s| ==> IsWhitespace(s[i])
  }

  /** Drops the leading whitespace: the result is the suffix of `s` that starts at its first non-whitespace character. */
  function TrimStart(s: string): (r: string)
    ensures |r| <= |s| && r == s[|s| - |r|..]
    ensures r != [] ==> !IsWhitespace(r[0])
    ensures forall i :: 0 <= i < |s| - |r| ==> IsWhitespace(s[i])
  {
    if s != [] && IsWhitespace(s[0]) then TrimStart(s[1..]) else s
  }

  /** Drops the trailing whitespace: the result is the prefix of `s` that ends at its last non-whitespace character. */
  function TrimEnd(s: string): (r: string)
    ensures |r| <= |s| && r == s[..|r|]
    ensures r != [] ==> !IsWhitespace(r[|r| - 1])
    ensures forall i :: |r| <= i < |s| ==> IsWhitespace(s[i])
  {
    if s != [] && IsWhitespace(s[|s| - 1]) then TrimEnd(s[..|s| - 1]) else s
  }

  /**
   `s.trim()`: what is left of `s` after removing the whitespace at both ends, that is, a prefix
   of `s` without its leading whitespace. It is empty exactly when `s` is blank, and otherwise
   starts and ends with a non-whitespace character.
   */
  function Trim(s: string): (r: string)
    ensures r == [] <==> IsBlank(s)
    ensures r != [] ==> !IsWhitespace(r[0]) && !IsWhitespace(r[|r| - 1])
    ensures |r| <= |TrimStart(s)| && r == TrimStart(s)[..|r|]
    ensures forall i :: |r| <= i < |TrimStart(s)| ==> IsWhitespace(TrimStart(s)[i])
  {
    TrimBothEnds(s);
    TrimEnd(TrimStart(s))
  }

  /** Trimming both ends leaves nothing exactly when the string is blank. */
  lemma TrimBothEnds(s: string)
    ensures TrimEnd(TrimStart(s)) == [] <==> IsBlank(s)
  {
    var t := TrimStart(s);
    var r := TrimEnd(t);
    var lo := |s| - |t|;
    if r != [] {
      assert !IsWhitespace(s[lo]) by { assert s[lo] == t[0] == r[0]; }
    }
  }

  /** Trimming a trimmed string changes nothing. */
  lemma TrimIdempotent(s: string)
    ensures Trim(Trim(s)) == Trim(s)
  {
    var r := Trim(s);
    if r != [] {
      assert TrimStart(r) == r;
      assert TrimEnd(r) == r;
    }
  }
}

=== FILE: wrappers.dfy ===
/** The optional value used wherever the source has `T | null` or an optional (`?`) field. */
module Wrappers {

  datatype Option<+T> = None | Some(value: T) {

    /** The value if present, otherwise the given default: the `{ ...prev, ...patch }` merge of one field. */
    function GetOr(default: T): (r: T)
      ensures Some? ==> r == value
      ensures None? ==> r == default
    {
      match this
      case Some(v) => v
      case None => default
    }
  }
}
